=== FILE: README.md ===
# Keyboard input core of the ytui-music terminal browser, modelled in Dafny

This project models `front-end/src/ui/event.rs` of ytui-music: the loop that
turns terminal key events into changes of the shared UI state record and
wakes the render/fetch thread. It has two layers.

- **Navigation arithmetic** (`navigation.dfy`). `advance_index` is the
  circular successor and predecessor of the sidebar cursor. `advance_list`
  moves a panel's selection by rotating its rows, so the front row is always
  the selected one. `get_page` picks the next page number to request and
  saturates at 0.
- **The keystroke step function** (`handlers.dfy`, `listener.dfy`). Every
  closure of `event_sender` becomes a pure function from the state record to a
  `Reaction`. A `Reaction` holds the new record, whether `notify_all` was
  called, and which playback call was made. `Listener.Step` is one turn of
  the listener loop, with `Listener.HandleKey` as its `KeyCode` dispatch.
  `Listener.Run` defines a run over a finite sequence of events, event by
  event, up to the quit key or a panic. `Listener.Listen` is the loop itself,
  and it ends exactly where `Run` does.

The state record (`state.dfy`) is an immutable datatype:

- the focused `Window`;
- the sidebar cursor;
- the three panel lists, as sequences;
- the feed tags `filled_source`;
- `fetched_page`, an array of three optional pages;
- `search`, a pair of the live query and the committed query;
- the single outstanding `FillFetch` request;
- the status text.

Each handler reads, decides and writes the record, often across two or three
lock acquisitions joined by `drop_and_call!`. The model runs each handler as
one atomic step over one value, and the condition variable becomes the
`notified` flag. Some things the handler needs are
defined elsewhere in the program:

- the window cycle `Window::next`/`prev`;
- `SIDEBAR_LIST_COUNT`;
- `SidebarOption::try_from`.

These are the four fields of an `Env` parameter. The count is a number and the
other three are functions. The model fixes no window order. It also does not
assume that `try_from` succeeds for every index below the count.

Three paths of the handlers panic, and each ends a step as `Outcome.Panicked`:

- `show_help`, which is `todo!()`;
- paging the playlist panel while it shows an artist, which is also `todo!()`;
- Enter on the sidebar with no cursor set, or with a cursor that `try_from`
  rejects. Both results are unwrapped at event.rs:308.
`play_first_of_musicbar` and `toggle_pause` belong to UI code outside this
model. They appear as `Effect` tags on the reaction.

Two behaviours of the code are modelled exactly as written:

- The `"playlist"` and `"artist"` forms of `fill_search!` retag the *music*
  panel as a search result (event.rs:79, event.rs:83). The playlist and artist
  tags are left alone. So paging a search-filled playlist panel relabels a
  music panel that may still show a playlist's rows. `Properties.PlaylistPagingRetagsMusic`
  states this.
- `fill_trending_music` and `fill_search!` never write `fetched_page`.
  `fill_music_from_playlist` and `fill_playlist_from_artist` do.

Two further behaviours of the code worth noting:

- Enter on an artist row retags the music and playlist panels with that
  artist, resets both page counters and clears both panels. It then records
  page 0 of the playlist panel and notifies. It writes no fetch request
  (event.rs:242-249, 368-381).
- The sidebar options YoutubeCommunity, Favourates and RecentlyPlayed retag and
  clear panels. They call empty fill closures, so they request nothing and
  notify nobody (event.rs:221-229, 317-341).

## Model

| member | source | states |
|---|---|---|
| Navigation.AdvanceIndex | front-end/src/ui/event.rs:29-35 | `Initial` keeps the index. `Next`/`Prev` always land below `limit`, an index below `limit` stays below it, `Next` of the last index wraps to 0 and `Prev` of 0 wraps to `limit - 1` |
| Navigation.IndexRoundTrip | front-end/src/ui/event.rs:29-35 | for an index below `limit`, `Prev` after `Next` and `Next` after `Prev` give the index back |
| Navigation.AdvanceList | front-end/src/ui/event.rs:37-47 | reports a change exactly when the list is non-empty and the direction is not `Initial`; otherwise the list is unchanged; length and multiset of rows are always preserved |
| Navigation.AdvanceListIndex | front-end/src/ui/event.rs:37-47 | after a move, row `i` holds the old row at `AdvanceIndex(i, n, direction)`: rotation and cursor arithmetic agree, so the new front is the old successor/predecessor of the selection |
| Navigation.ListRoundTrip | front-end/src/ui/event.rs:37-47 | rotating forward then back, or back then forward, restores the list |
| Navigation.RotateNextShifts | front-end/src/ui/event.rs:37-47 | after `k` presses of `Next`, row `i` shows the original row `(i + k) mod n` |
| Navigation.FullCycle | front-end/src/ui/event.rs:37-47 | `n` presses of `Next` on an `n`-row list bring it back to its original order |
| Navigation.GetPage | front-end/src/ui/event.rs:59-70 | no previous page, or `Initial`, gives page 0. `Next` gives the page after. `Prev` gives the page before, or stays at 0, never going below |
| Navigation.PageRoundTrip | front-end/src/ui/event.rs:59-70 | paging forward then back returns to the page last fetched |
| Text.Trim | front-end/src/ui/event.rs:350 | the committed query is the slice of the live query between its leading and trailing whitespace. It starts and ends with a non-whitespace character and is empty exactly when the live query is all whitespace |
| Text.TrimIdempotent | front-end/src/ui/event.rs:350 | committing an already trimmed query changes nothing |
| Text.Pop | front-end/src/ui/event.rs:162 | deleting removes exactly the last character of a non-empty query and leaves an empty one alone |
| Text.PopAfterPush | front-end/src/ui/event.rs:162-169 | deleting right after typing a character restores the query |
| Handlers.AdvanceSidebar | front-end/src/ui/event.rs:111-120 | only the sidebar cursor changes. It becomes `advance_index` of the old cursor (an unset cursor counts as row 0) over the sidebar count, so it is always set, and it stays on an existing row. Observers are notified |
| Handlers.AdvancePanel | front-end/src/ui/event.rs:121-135 | only the chosen panel's rows change, and they become exactly the rows rotated by `advance_list`, a permutation. Observers are notified exactly when the panel was non-empty |
| Handlers.Quit | front-end/src/ui/event.rs:136-140 | only the focus changes, to the stop sentinel, and observers are notified |
| Handlers.MoveToNextWindow | front-end/src/ui/event.rs:141-145 | only the focus changes, to the next window of the cycle, with a notification |
| Handlers.MoveToPrevWindow | front-end/src/ui/event.rs:146-150 | only the focus changes, to the previous window of the cycle, with a notification |
| Handlers.HandleEsc | front-end/src/ui/event.rs:151-157 | notifies exactly in the search bar, where the live query is cleared (the committed one kept) and focus moves on; elsewhere nothing changes |
| Handlers.HandleBackspace | front-end/src/ui/event.rs:158-167 | pops the live query in the search bar, focuses the previous window elsewhere, and always notifies |
| Handlers.HandleSearchInput | front-end/src/ui/event.rs:168-171 | the live query grows by exactly the typed character at its end; nothing else changes |
| Handlers.ActivateSearch | front-end/src/ui/event.rs:172-179 | only the focus changes, to the search bar, with a notification |
| Handlers.HandleUp | front-end/src/ui/event.rs:183-192 | on the sidebar it is `advance_sidebar(Prev)`. On a list window it is the previous-row move of that window's panel. In the search bar, the help window or with no focus it is `moveto_prev_window`. The sidebar cursor stays on an existing row |
| Handlers.HandleDown | front-end/src/ui/event.rs:193-202 | on the sidebar it is `advance_sidebar(Next)`. On a list window it is the next-row move of that window's panel. In the search bar, the help window or with no focus it is `moveto_next_window`. The sidebar cursor stays on an existing row |
| Handlers.FillSearchCore | front-end/src/ui/event.rs:95-107 | the request searches the committed query; a column's page slot is set exactly when that column was requested, to `get_page` of its last fetched page; only the request and status text change |
| Handlers.FillSearch | front-end/src/ui/event.rs:72-93 | the music tag always becomes `Search`. The playlist and artist tags change only in the all-columns form. The page counters are never touched |
| Handlers.FillTrendingMusic | front-end/src/ui/event.rs:214-220 | requests trending page `get_page(fetched_page[0])` and changes only the request and status text (the page counter is not recorded) |
| Handlers.FillMusicFromPlaylist | front-end/src/ui/event.rs:233-241 | acts (and notifies) exactly when the music panel shows a playlist: records the new music page as fetched and requests the playlist; other counters unchanged |
| Handlers.FillPlaylistFromArtist | front-end/src/ui/event.rs:242-249 | acts exactly when the playlist panel shows an artist: records the new playlist page, writes no request |
| Handlers.HandlePlayAdvance | front-end/src/ui/event.rs:250-256 | rotates the music rows, notifies exactly when they moved, then asks to play the new front row |
| Handlers.HandlePageNav | front-end/src/ui/event.rs:257-301 | panics exactly for a playlist panel showing an artist. It never moves focus or the sidebar cursor |
| Handlers.HandleEnter | front-end/src/ui/event.rs:302-384 | never moves the sidebar cursor. In the help window or with no focus it changes and notifies nothing |
| Listener.HandleShortcut | front-end/src/ui/event.rs:416-440 | outside the search bar: `/` activates the search bar. `q` alone leaves the loop, setting the stop sentinel and notifying. Control-`n`/`p` play-advance and plain `n`/`p` page. Space toggles pause without a notification. The seek keys and every other character do nothing. The step panics exactly on `?`, or on plain `n`/`p` on a playlist panel showing an artist. The sidebar cursor never moves |
| Listener.HandleKey | front-end/src/ui/event.rs:389-443 | each key code goes to its handler: Down/PageDown and Up/PageUp to the selection moves, Right/Tab and Left/BackTab to the next and previous window, Esc, Enter and Backspace/Delete to their handlers. A character is typed into the query in the search bar and is a shortcut elsewhere. Any other key is silent. A key leaves the loop exactly when it is `q` outside the search bar, and it panics exactly on a failing shortcut or on Enter on the sidebar without a usable cursor. The sidebar cursor stays on an existing row |
| Listener.Step | front-end/src/ui/event.rs:386-453 | the loop exits exactly on `q` outside the search bar, setting the stop sentinel and notifying. It panics exactly on the events `Panics` names. Resize, mouse and timeout events change no state. The sidebar cursor stays on an existing row |
| Listener.Feed | front-end/src/ui/event.rs:386-453 | a stopped run reads nothing more. Otherwise the event is counted, and it stops the run exactly when it is the quit key (with focus gone) or panics (state kept) |
| Listener.Run | front-end/src/ui/event.rs:386-453 | a run reads at most all events and notifies at most once per event. It drains only by reading every event, leaves no focus after a quit, and keeps a valid sidebar cursor valid |
| Listener.RunStopsAtFirst | front-end/src/ui/event.rs:421-423 | a stopped run stopped at the last event it read, and at the first quit or panic. The run over the earlier events had not stopped, and that event is the quit key or panics in the state reached |
| Listener.RunDrainedMeetsNoStop | front-end/src/ui/event.rs:386-453 | if a run read every event, no event was the quit key or panicked in the state it met |
| Listener.StoppedRunIgnoresRest | front-end/src/ui/event.rs:421-423 | after a quit or a panic, later events never change the run |
| Listener.QuitFirstEndsRun | front-end/src/ui/event.rs:421-423 | `q` as the first event outside the search bar ends the run after one event and one notification, whatever follows |
| Listener.Listen | front-end/src/ui/event.rs:386-453 | the loop ends with exactly the state, event count, notification count and stop reason of `Run`. It keeps a valid sidebar cursor valid |
| Properties.SearchCommit | front-end/src/ui/event.rs:349-357 | Enter in the search bar commits the trimmed query, resets all page counters, clears all three panels, retags them as search results and requests page 0 of every column, notifying once |
| Properties.SearchCommitTrims | front-end/src/ui/event.rs:350 | committing `"  lofi  "` makes the committed query `"lofi"` |
| Properties.SearchPaging | front-end/src/ui/event.rs:72-107 | paging a search-filled panel requests only that panel's column at its next/previous page. The page counters stay as they were, and the music panel (not the paged one) is tagged as search |
| Properties.MusicPaging | front-end/src/ui/event.rs:214-241 | on the music panel, a trending feed requests `Trending(get_page(..))` without recording the page; a playlist feed records the page as fetched and requests the playlist |
| Properties.PagingNoOp | front-end/src/ui/event.rs:257-301 | the paging keys change and notify nothing exactly when the focused feed has no paging (community, recent, favourites, artist music; favourites/recent playlists; followed/recent artists) or the sidebar, the help window or no window is focused |
| Properties.TrendingNextPage | front-end/src/ui/event.rs:214-220 | a trending music panel at page 2 asks for page 3 on `n` |
| Properties.SearchbarCapturesTyping | front-end/src/ui/event.rs:411-415 | in the search bar every character (including `q`, `n`, `/`) is appended to the live query and no shortcut fires |
| Properties.TypeThenErase | front-end/src/ui/event.rs:158-171 | typing a character and then Backspace or Delete in the search bar restores the whole state |
| Properties.BackspaceOutsideSearch | front-end/src/ui/event.rs:158-167 | outside the search bar Backspace and Delete only focus the previous window |
| Properties.EscOnlyInSearch | front-end/src/ui/event.rs:151-157 | Esc acts (and notifies) exactly in the search bar: the live query is cleared and the next window focused |
| Properties.QuitOutsideSearch | front-end/src/ui/event.rs:136-140 | `q` outside the search bar, with or without control, ends the loop with the stop sentinel focused and a notification |
| Properties.NavigationKeepsData | front-end/src/ui/event.rs:390-401 | arrow, page and tab keys never change feeds, page counters, queries, the request or the status text |
| Properties.UpDownOutsideLists | front-end/src/ui/event.rs:183-202 | in the search bar, the help window or with no focus, Up does what BackTab does and Down does what Tab does: they focus the previous or the next window |
| Properties.SidebarMoves | front-end/src/ui/event.rs:111-120 | on the sidebar, Down moves the cursor from row `i` (unset counts as 0) to `i + 1`, or to row 0 from the last row. Up moves it to `i - 1`, or to the last row from row 0. Both notify |
| Properties.SelectionMoves | front-end/src/ui/event.rs:183-202 | in a non-empty list panel, Down selects the circular successor row and Up the last row, keeping the rows as a permutation |
| Properties.DownThenUp | front-end/src/ui/event.rs:183-202 | in the sidebar with the cursor on an existing row, or in a list panel whatever the cursor, Down then Up restores the state |
| Properties.PlayAdvance | front-end/src/ui/event.rs:424-435 | control-`n`/`p` outside the search bar rotates the music rows (whatever has focus) and then plays the new front row |
| Properties.SidebarEnter | front-end/src/ui/event.rs:306-345 | per option under the cursor. Trending restarts the trending feed at page 0. Community, favourites and recently-played retag and clear panels with no request and no notification. Search focuses the search bar. None does nothing. With no cursor, or one the option conversion rejects, the step panics |
| Properties.PlaylistEnter | front-end/src/ui/event.rs:359-367 | Enter on a playlist row shows that playlist in the cleared music panel and requests its page 0, recorded as fetched; an empty panel does nothing |
| Properties.ArtistEnter | front-end/src/ui/event.rs:368-381 | Enter on an artist row retags and clears the music and playlist panels with that artist and sets the page counters to (none, 0); the request is not changed |
| Properties.MusicEnter | front-end/src/ui/event.rs:346-348 | Enter on the music panel only asks to play its front row |
| Properties.RefreshEvents | front-end/src/ui/event.rs:444-452 | a poll timeout or a resize notifies with the state unchanged; a mouse event does nothing |
| Properties.RetagClearsRows | front-end/src/ui/event.rs:302-384 | every step except paging a playlist or artist panel clears a panel whenever it changes that panel's feed tag |
| Properties.PlaylistPagingRetagsMusic | front-end/src/ui/event.rs:77-80 | paging a search-filled playlist panel retags a playlist-showing music panel as search without clearing its rows |
| Properties.DataChangesOnlyOnCommitOrPaging | front-end/src/ui/event.rs:389-443 | only Enter and the plain `n`/`p` keys outside the search bar change the request, page counters or feed tags |

## Left out

- Terminal I/O. `event::poll` with its 950 ms timeout and `event::read` are not modelled. Their outcomes are the `Tick`, `Resize`, `Mouse` and `Press` events. A failure of either primitive (the `unwrap` panics) is not modelled.
- Locking. `Mutex`, `Condvar` and `drop_and_call!` are replaced by one sequential state value and the `notified` flag. Lock poisoning is not modelled.
- Interleaving between lock acquisitions. Many handlers release the lock part-way and take it again, so the render/fetch thread could run in between:
  - `handle_esc`, `handle_backspace`, `handle_up`, `handle_down` and `handle_page_nav` hand over through `drop_and_call!`;
  - `handle_enter` retags and clears under one lock and fills under another;
  - `handle_play_advance` and the `Char` dispatch lock twice;
  - `fill_search!` notifies before it writes the feed tags, under a second lock acquisition.

  The model runs each handler as one atomic step.
- Playback. `play_first_of_musicbar` and `toggle_pause` are effect tags. Their own state changes and notifications are UI code that is not part of this model.
- Window order and sidebar options. `Window::next`/`prev`, `SIDEBAR_LIST_COUNT` and `SidebarOption::try_from` are defined outside `event.rs`. They are the four fields of `Env`. The model assumes only that the count is positive, which `advance_index` needs for its `% limit`.
- Panics. The two `todo!()` paths and the two unwraps of sidebar Enter end a step as `Outcome.Panicked`. The model does not follow the program past a panic.
- Seek keys and `shrink_to_fit`. The seek keys `<`/`>` do nothing, like their empty arms, and `shrink_to_fit` has no observable effect.
- Rows and the selection offset. Rows carry only an identifier and a title. The `ListState` scroll offset touched by `select` is not modelled.
- Navigation.GetPage: page numbers are unbounded, so `prev + 1` does not model the overflow at `usize::MAX`.
- Text.Trim: uses the Unicode White_Space table of `char::is_whitespace` on code points; no other Unicode handling is modelled.

=== FILE: handlers.dfy ===
/**
 * The handlers the keyboard loop calls, one function per closure of the
 * program's event sender. Each takes the shared state and returns the state
 * afterwards, whether observers were notified, and which playback call (if
 * any) was made on the state.
 */
module Handlers {
  import opened Wrappers
  import opened Navigation
  import opened Text
  import opened UiState

  const SEARCHING: string := "Searching.."
  const FETCHING: string := "Fetching.."

  /** Playback calls into user-interface code outside this model, made after the update. */
  datatype Effect = NoEffect | PlayFirstOfMusicbar | TogglePause

  /** The state after a handler, whether it woke the observers, and its playback call. */
  datatype Reaction = Reaction(state: State, notified: bool, effect: Effect)

  /**
   * Why the program panics: one of its two unimplemented paths (`todo!()`),
   * or Enter on the sidebar with no cursor set or a cursor that
   * `SidebarOption::try_from` rejects (the two `unwrap`s of `handle_enter`).
   */
  datatype Panic = ShowHelp | PlaylistPagingByArtist | NoSidebarSelection

  /** How one input event ends: keep listening, leave the loop, or panic. */
  datatype Outcome =
    | Continue(reaction: Reaction)
    | Exit(reaction: Reaction)
    | Panicked(cause: Panic)

  function Notify(s: State): (r: Reaction) {
    Reaction(s, true, NoEffect)
  }

  function Silent(s: State): (r: Reaction) {
    Reaction(s, false, NoEffect)
  }

  /** The rows shown in a middle panel. */
  function Rows(s: State, p: Panel): (rows: seq<Row>) {
    match p
    case MusicPanel => s.musicbar
    case PlaylistPanel => s.playlistbar
    case ArtistPanel => s.artistbar
  }

  /** `s` with the rows of panel `p` replaced and every other field kept. */
  function WithRows(s: State, p: Panel, rows: seq<Row>): (t: State)
    ensures Rows(t, p) == rows
    ensures forall q: Panel :: q != p ==> Rows(t, q) == Rows(s, q)
    ensures t.(musicbar := s.musicbar, playlistbar := s.playlistbar, artistbar := s.artistbar) == s
  {
    match p
    case MusicPanel => s.(musicbar := rows)
    case PlaylistPanel => s.(playlistbar := rows)
    case ArtistPanel => s.(artistbar := rows)
  }

  /** `advance_sidebar`: moves the sidebar cursor (an unset cursor counts as row 0). */
  function AdvanceSidebar(env: Env, s: State, direction: HeadTo): (r: Reaction)
    requires env.Valid()
    ensures r.notified && r.effect == NoEffect
    ensures r.state == s.(sidebar := r.state.sidebar)
    ensures r.state.sidebar == Some(AdvanceIndex(s.sidebar.GetOr(0), env.sidebarCount, direction))
    ensures WellFormed(env, s) || !direction.Initial? ==> WellFormed(env, r.state)
  {
    var current := s.sidebar.GetOr(0);
    Notify(s.(sidebar := Some(AdvanceIndex(current, env.sidebarCount, direction))))
  }

  /** `advance_music_list` and its playlist and artist twins: rotate one panel's rows. */
  function AdvancePanel(s: State, p: Panel, direction: HeadTo): (r: Reaction)
    ensures r.notified <==> |Rows(s, p)| > 0 && !direction.Initial?
    ensures r.effect == NoEffect
    ensures Rows(r.state, p) == AdvanceList(Rows(s, p), direction).list
    ensures multiset(Rows(r.state, p)) == multiset(Rows(s, p))
    ensures r.state == WithRows(s, p, Rows(r.state, p))
  {
    var moved := AdvanceList(Rows(s, p), direction);
    Reaction(WithRows(s, p, moved.list), moved.changed, NoEffect)
  }

  /** `quit`: the sentinel focus tells the rest of the program to stop. */
  function Quit(s: State): (r: Reaction)
    ensures r.notified && r.state.active == Window.None
    ensures r.state.(active := s.active) == s
  {
    Notify(s.(active := Window.None))
  }

  function MoveToNextWindow(env: Env, s: State): (r: Reaction)
    ensures r.notified && r.state.active == env.next(s.active)
    ensures r.state.(active := s.active) == s
  {
    Notify(s.(active := env.next(s.active)))
  }

  function MoveToPrevWindow(env: Env, s: State): (r: Reaction)
    ensures r.notified && r.state.active == env.prev(s.active)
    ensures r.state.(active := s.active) == s
  {
    Notify(s.(active := env.prev(s.active)))
  }

  /** `handle_esc`: only the search bar reacts, by clearing the live query and moving on. */
  function HandleEsc(env: Env, s: State): (r: Reaction)
    ensures r.notified <==> s.active == Window.Searchbar
    ensures s.active == Window.Searchbar ==>
              r.state == s.(active := env.next(Window.Searchbar), search := ("", s.search.1))
    ensures s.active != Window.Searchbar ==> r.state == s
  {
    if s.active == Window.Searchbar then
      MoveToNextWindow(env, s.(search := ("", s.search.1)))
    else
      Silent(s)
  }

  /** `handle_backspace`: deletes in the search bar, steps back a window elsewhere. */
  function HandleBackspace(env: Env, s: State): (r: Reaction)
    ensures r.notified
    ensures s.active == Window.Searchbar ==> r.state == s.(search := (Pop(s.search.0), s.search.1))
    ensures s.active != Window.Searchbar ==> r.state == s.(active := env.prev(s.active))
  {
    if s.active == Window.Searchbar then
      Notify(s.(search := (Pop(s.search.0), s.search.1)))
    else
      MoveToPrevWindow(env, s)
  }

  /** `handle_search_input`: appends one typed character to the live query. */
  function HandleSearchInput(s: State, c: char): (r: Reaction)
    ensures r.notified
    ensures |r.state.search.0| == |s.search.0| + 1 && r.state.search.0[..|s.search.0|] == s.search.0
    ensures r.state.search.0[|s.search.0|] == c
    ensures r.state.(search := s.search) == s && r.state.search.1 == s.search.1
  {
    Notify(s.(search := (s.search.0 + [c], s.search.1)))
  }

  /** `activate_search`: focuses the search bar. */
  function ActivateSearch(s: State): (r: Reaction)
    ensures r.notified && r.state.active == Window.Searchbar
    ensures r.state.(active := s.active) == s
  {
    Notify(s.(active := Window.Searchbar))
  }

  /** A middle panel's window. */
  predicate IsListWindow(w: Window) {
    w == Window.Musicbar || w == Window.Playlistbar || w == Window.Artistbar
  }

  /** The panel a list window shows. */
  function PanelOf(w: Window): (p: Panel)
    requires IsListWindow(w)
  {
    if w == Window.Musicbar then MusicPanel else if w == Window.Playlistbar then PlaylistPanel else ArtistPanel
  }

  /**
   * `handle_up`: moves the sidebar cursor or the focused panel's selection
   * back; in every other window (search bar, help, none) it focuses the
   * previous window instead.
   */
  function HandleUp(env: Env, s: State): (r: Reaction)
    requires env.Valid()
    ensures s.active == Window.Sidebar ==> r == AdvanceSidebar(env, s, Prev)
    ensures IsListWindow(s.active) ==> r == AdvancePanel(s, PanelOf(s.active), Prev)
    ensures s.active != Window.Sidebar && !IsListWindow(s.active) ==> r == MoveToPrevWindow(env, s)
    ensures WellFormed(env, s) ==> WellFormed(env, r.state)
  {
    match s.active
    case Sidebar => AdvanceSidebar(env, s, Prev)
    case Musicbar => AdvancePanel(s, MusicPanel, Prev)
    case Playlistbar => AdvancePanel(s, PlaylistPanel, Prev)
    case Artistbar => AdvancePanel(s, ArtistPanel, Prev)
    case _ => MoveToPrevWindow(env, s)
  }

  /**
   * `handle_down`: moves the sidebar cursor or the focused panel's selection
   * forward; in every other window (search bar, help, none) it focuses the
   * next window instead.
   */
  function HandleDown(env: Env, s: State): (r: Reaction)
    requires env.Valid()
    ensures s.active == Window.Sidebar ==> r == AdvanceSidebar(env, s, Next)
    ensures IsListWindow(s.active) ==> r == AdvancePanel(s, PanelOf(s.active), Next)
    ensures s.active != Window.Sidebar && !IsListWindow(s.active) ==> r == MoveToNextWindow(env, s)
    ensures WellFormed(env, s) ==> WellFormed(env, r.state)
  {
    match s.active
    case Sidebar => AdvanceSidebar(env, s, Next)
    case Musicbar => AdvancePanel(s, MusicPanel, Next)
    case Playlistbar => AdvancePanel(s, PlaylistPanel, Next)
    case Artistbar => AdvancePanel(s, ArtistPanel, Next)
    case _ => MoveToNextWindow(env, s)
  }

  /** The page slot of one column in a search request. */
  function Slot(s: State, direction: HeadTo, columns: set<Panel>, p: Panel): (page: Option<nat>) {
    if p in columns then Some(GetPage(s.fetchedPage[p.Index()], direction)) else Option.None
  }

  /**
   * The core of `fill_search!`: a search request for the committed query in
   * which exactly the requested columns carry a page, each computed from that
   * column's last fetched page. The page counters themselves are not touched.
   */
  function FillSearchCore(s: State, direction: HeadTo, columns: set<Panel>): (r: Reaction)
    ensures r.notified && r.effect == NoEffect
    ensures r.state.toFetch.Search? && r.state.toFetch.query == s.search.1
    ensures forall p: Panel :: r.state.toFetch.pages[p.Index()].Some? <==> p in columns
    ensures forall p: Panel :: p in columns ==>
              r.state.toFetch.pages[p.Index()] == Some(GetPage(s.fetchedPage[p.Index()], direction))
    ensures r.state == s.(toFetch := r.state.toFetch, help := SEARCHING)
  {
    var pages := [Slot(s, direction, columns, MusicPanel),
                  Slot(s, direction, columns, PlaylistPanel),
                  Slot(s, direction, columns, ArtistPanel)];
    Notify(s.(toFetch := FillFetch.Search(s.search.1, pages), help := SEARCHING))
  }

  /** The first argument of `fill_search!`: which columns to search. */
  datatype SearchScope = MusicColumn | PlaylistColumn | ArtistColumn | AllColumns {
    function Columns(): (columns: set<Panel>) {
      match this
      case MusicColumn => {MusicPanel}
      case PlaylistColumn => {PlaylistPanel}
      case ArtistColumn => {ArtistPanel}
      case AllColumns => {MusicPanel, PlaylistPanel, ArtistPanel}
    }
  }

  /**
   * `fill_search!`. As written in the program, the single-column forms all
   * retag the music panel as a search result, whichever column they search;
   * only the all-columns form retags the playlist and artist panels.
   */
  function FillSearch(s: State, direction: HeadTo, scope: SearchScope): (r: Reaction)
    ensures r.notified && r.effect == NoEffect
    ensures r.state.toFetch == FillSearchCore(s, direction, scope.Columns()).state.toFetch
    ensures r.state.filledSource.0 == MusicbarSource.Search
    ensures scope.AllColumns? ==>
              r.state.filledSource.1 == PlaylistbarSource.Search && r.state.filledSource.2 == ArtistbarSource.Search
    ensures !scope.AllColumns? ==>
              r.state.filledSource.1 == s.filledSource.1 && r.state.filledSource.2 == s.filledSource.2
    ensures r.state == s.(toFetch := r.state.toFetch, help := SEARCHING, filledSource := r.state.filledSource)
  {
    var core := FillSearchCore(s, direction, scope.Columns()).state;
    var fs := core.filledSource;
    if scope.AllColumns? then
      Notify(core.(filledSource := (MusicbarSource.Search, PlaylistbarSource.Search, ArtistbarSource.Search)))
    else
      Notify(core.(filledSource := (MusicbarSource.Search, fs.1, fs.2)))
  }

  /** `fill_trending_music`: requests a trending page; the page counter is left as it was. */
  function FillTrendingMusic(s: State, direction: HeadTo): (r: Reaction)
    ensures r.notified
    ensures r.state.toFetch == FillFetch.Trending(GetPage(s.fetchedPage[MIDDLE_MUSIC_INDEX], direction))
    ensures r.state == s.(toFetch := r.state.toFetch, help := FETCHING)
  {
    var page := GetPage(s.fetchedPage[MIDDLE_MUSIC_INDEX], direction);
    Notify(s.(toFetch := FillFetch.Trending(page), help := FETCHING))
  }

  /**
   * `fill_music_from_playlist`: only while the music panel shows a playlist,
   * records the new page as fetched and requests it.
   */
  function FillMusicFromPlaylist(s: State, direction: HeadTo): (r: Reaction)
    ensures r.notified <==> s.filledSource.0.Playlist?
    ensures !r.notified ==> r.state == s
    ensures r.notified ==>
              && r.state.fetchedPage[MIDDLE_MUSIC_INDEX] == Some(GetPage(s.fetchedPage[MIDDLE_MUSIC_INDEX], direction))
              && r.state == s.(fetchedPage := r.state.fetchedPage, toFetch := FillFetch.Playlist)
              && r.state.fetchedPage[1..] == s.fetchedPage[1..]
  {
    if s.filledSource.0.Playlist? then
      var page := GetPage(s.fetchedPage[MIDDLE_MUSIC_INDEX], direction);
      Notify(s.(fetchedPage := s.fetchedPage[MIDDLE_MUSIC_INDEX := Some(page)], toFetch := FillFetch.Playlist))
    else
      Silent(s)
  }

  /**
   * `fill_playlist_from_artist`: only while the playlist panel shows an
   * artist, records the new page as fetched. It issues no request.
   */
  function FillPlaylistFromArtist(s: State, direction: HeadTo): (r: Reaction)
    ensures r.notified <==> s.filledSource.1.Artist?
    ensures !r.notified ==> r.state == s
    ensures r.notified ==>
              && r.state.fetchedPage[MIDDLE_PLAYLIST_INDEX] == Some(GetPage(s.fetchedPage[MIDDLE_PLAYLIST_INDEX], direction))
              && r.state == s.(fetchedPage := r.state.fetchedPage)
              && r.state.fetchedPage[MIDDLE_MUSIC_INDEX] == s.fetchedPage[MIDDLE_MUSIC_INDEX]
              && r.state.fetchedPage[MIDDLE_ARTIST_INDEX] == s.fetchedPage[MIDDLE_ARTIST_INDEX]
  {
    if s.filledSource.1.Artist? then
      var page := GetPage(s.fetchedPage[MIDDLE_PLAYLIST_INDEX], direction);
      Notify(s.(fetchedPage := s.fetchedPage[MIDDLE_PLAYLIST_INDEX := Some(page)]))
    else
      Silent(s)
  }

  /** `handle_play_advance`: moves the music selection, then plays the new front row. */
  function HandlePlayAdvance(s: State, direction: HeadTo): (r: Reaction)
    ensures r.effect == PlayFirstOfMusicbar
    ensures r.notified <==> |s.musicbar| > 0 && !direction.Initial?
    ensures r.state == s.(musicbar := AdvanceList(s.musicbar, direction).list)
  {
    var moved := AdvancePanel(s, MusicPanel, direction);
    Reaction(moved.state, moved.notified, PlayFirstOfMusicbar)
  }

  /**
   * `handle_page_nav`: what "next/previous page" means depends on the focused
   * panel and the feed that fills it. Feeds without paging are silent no-ops;
   * paging a playlist panel filled from an artist is unimplemented.
   */
  function HandlePageNav(s: State, direction: HeadTo): (o: Outcome)
    ensures o.Panicked? <==> s.active == Window.Playlistbar && s.filledSource.1.Artist?
    ensures o.Continue? || o.Panicked?
    ensures o.Continue? ==> o.reaction.state.sidebar == s.sidebar && o.reaction.state.active == s.active
  {
    match s.active
    case Musicbar =>
      (match s.filledSource.0
       case Trending => Continue(FillTrendingMusic(s, direction))
       case YoutubeCommunity => Continue(Silent(s))
       case RecentlyPlayed => Continue(Silent(s))
       case Favourates => Continue(Silent(s))
       case Search => Continue(FillSearch(s, direction, MusicColumn))
       case Playlist(_) => Continue(FillMusicFromPlaylist(s, direction))
       case Artist(_) => Continue(Silent(s)))
    case Playlistbar =>
      (match s.filledSource.1
       case Search => Continue(FillSearch(s, direction, PlaylistColumn))
       case Artist(_) => Panicked(PlaylistPagingByArtist)
       case Favourates => Continue(Silent(s))
       case RecentlyPlayed => Continue(Silent(s)))
    case Artistbar =>
      (match s.filledSource.2
       case Followings => Continue(Silent(s))
       case Search => Continue(FillSearch(s, direction, ArtistColumn))
       case RecentlyPlayed => Continue(Silent(s)))
    case _ => Continue(Silent(s))
  }

  /**
   * Enter on the sidebar needs a set cursor that `SidebarOption::try_from`
   * accepts: the program unwraps both and panics otherwise.
   */
  predicate SidebarEnterReady(env: Env, s: State) {
    s.active == Window.Sidebar ==> s.sidebar.Some? && env.sidebarOption(s.sidebar.value).Some?
  }

  /** `handle_enter`: commits the focused panel's selection. */
  function HandleEnter(env: Env, s: State): (r: Reaction)
    requires SidebarEnterReady(env, s)
    ensures r.state.sidebar == s.sidebar
    ensures s.active == Window.None || s.active == Window.Helpbar ==> r == Silent(s)
  {
    var fs := s.filledSource;
    match s.active
    case Sidebar =>
      (match env.sidebarOption(s.sidebar.value).value
       case Trending =>
         FillTrendingMusic(s.(fetchedPage := s.fetchedPage[MIDDLE_MUSIC_INDEX := Option.None],
                              filledSource := (MusicbarSource.Trending, fs.1, fs.2),
                              musicbar := []), Initial)
       case YoutubeCommunity =>
         // the community feed has no fetcher yet: retag and clear, nothing is requested
         Silent(s.(filledSource := (MusicbarSource.YoutubeCommunity, fs.1, fs.2), musicbar := []))
       case Favourates =>
         Silent(s.(filledSource := (MusicbarSource.Favourates, PlaylistbarSource.Favourates, ArtistbarSource.Followings),
                   musicbar := [], playlistbar := [], artistbar := []))
       case RecentlyPlayed =>
         Silent(s.(filledSource := (MusicbarSource.RecentlyPlayed, PlaylistbarSource.RecentlyPlayed, ArtistbarSource.RecentlyPlayed),
                   musicbar := [], playlistbar := [], artistbar := []))
       case Search => ActivateSearch(s)
       case None => Silent(s))
    case Musicbar => Reaction(s, false, PlayFirstOfMusicbar)
    case Searchbar =>
      FillSearch(s.(search := (s.search.0, Trim(s.search.0)), fetchedPage := NO_PAGES,
                    musicbar := [], playlistbar := [], artistbar := []), Initial, AllColumns)
    case Playlistbar =>
      if |s.playlistbar| > 0 then
        FillMusicFromPlaylist(s.(filledSource := (MusicbarSource.Playlist(s.playlistbar[0].id), fs.1, fs.2),
                                 fetchedPage := s.fetchedPage[MIDDLE_MUSIC_INDEX := Option.None],
                                 musicbar := []), Initial)
      else
        Silent(s)
    case Artistbar =>
      if |s.artistbar| > 0 then
        var id := s.artistbar[0].id;
        FillPlaylistFromArtist(s.(filledSource := (MusicbarSource.Artist(id), PlaylistbarSource.Artist(id), fs.2),
                                  fetchedPage := s.fetchedPage[MIDDLE_MUSIC_INDEX := Option.None][MIDDLE_PLAYLIST_INDEX := Option.None],
                                  musicbar := [], playlistbar := []), Initial)
      else
        Silent(s)
    case None => Silent(s)
    case Helpbar => Silent(s)
  }
}

=== FILE: listener.dfy ===
/**
 * The listener loop: decoding one terminal event into a handler call, and
 * the loop that feeds a sequence of events through it until the quit key.
 */
module Listener {
  import opened Navigation
  import opened UiState
  import opened Handlers

  const SEARCH_SH_KEY: char := '/'
  const HELP_SH_KEY: char := '?'
  const NEXT_SH_KEY: char := 'n'
  const PREV_SH_KEY: char := 'p'
  const QUIT_SH_KEY: char := 'q'
  const SEEK_F_KEY: char := '>'
  const SEEK_B_KEY: char := '<'
  const TOGGLE_PAUSE_KEY: char := ' '

  /** The key codes the loop distinguishes; `OtherKey` is every code it ignores. */
  datatype KeyCode =
    | Down | PageDown | Up | PageUp | Right | Tab | Left | BackTab
    | Esc | Enter | Backspace | Delete
    | Char(c: char)
    | OtherKey

  /** A key press, with whether the control modifier was held. */
  datatype Key = Key(code: KeyCode, control: bool)

  /**
   * What one turn of the loop sees: a key, a terminal resize, a mouse event,
   * or the poll timing out with no input (the periodic refresh tick).
   */
  datatype Event = Press(key: Key) | Resize | Mouse | Tick

  /** The quit shortcut: `q` pressed anywhere but in the search bar. */
  predicate IsQuit(s: State, ev: Event) {
    ev.Press? && ev.key.code == Char(QUIT_SH_KEY) && s.active != Window.Searchbar
  }

  /** The paging shortcuts `n` and `p`, pressed without control. */
  predicate IsPageKey(ev: Event) {
    ev.Press? && !ev.key.control && (ev.key.code == Char(NEXT_SH_KEY) || ev.key.code == Char(PREV_SH_KEY))
  }

  /**
   * The shortcuts that panic outside the search bar: the help key, and
   * paging a playlist panel filled from an artist.
   */
  predicate ShortcutPanics(s: State, c: char, control: bool) {
    || c == HELP_SH_KEY
    || (&& (c == NEXT_SH_KEY || c == PREV_SH_KEY) && !control
        && s.active == Window.Playlistbar && s.filledSource.1.Artist?)
  }

  /** The key presses on which a step panics: a failing shortcut, or Enter on the sidebar without a usable cursor. */
  predicate KeyPanics(env: Env, s: State, key: Key) {
    || (key.code == Enter && !SidebarEnterReady(env, s))
    || (s.active != Window.Searchbar && key.code.Char? && ShortcutPanics(s, key.code.c, key.control))
  }

  /** The events on which a step panics. */
  predicate Panics(env: Env, s: State, ev: Event) {
    ev.Press? && KeyPanics(env, s, ev.key)
  }

  /**
   * A character key outside the search bar: the single-character shortcuts.
   * Only `q` leaves the loop; `?` and paging an artist-filled playlist panel
   * panic.
   */
  function HandleShortcut(s: State, c: char, control: bool): (o: Outcome)
    requires s.active != Window.Searchbar
    ensures o.Exit? <==> c == QUIT_SH_KEY
    ensures o.Exit? ==> o.reaction == Reaction(s.(active := Window.None), true, NoEffect)
    ensures o.Panicked? <==> ShortcutPanics(s, c, control)
    ensures !o.Panicked? ==> o.reaction.state.sidebar == s.sidebar
    ensures c == SEARCH_SH_KEY ==> o == Continue(ActivateSearch(s))
    ensures c == NEXT_SH_KEY && control ==> o == Continue(HandlePlayAdvance(s, Next))
    ensures c == NEXT_SH_KEY && !control ==> o == HandlePageNav(s, Next)
    ensures c == PREV_SH_KEY && control ==> o == Continue(HandlePlayAdvance(s, Prev))
    ensures c == PREV_SH_KEY && !control ==> o == HandlePageNav(s, Prev)
    ensures c == TOGGLE_PAUSE_KEY ==> o == Continue(Reaction(s, false, TogglePause))
    ensures c !in {SEARCH_SH_KEY, HELP_SH_KEY, QUIT_SH_KEY, NEXT_SH_KEY, PREV_SH_KEY, TOGGLE_PAUSE_KEY} ==>
              o == Continue(Silent(s))
  {
    if c == SEARCH_SH_KEY then Continue(ActivateSearch(s))
    else if c == HELP_SH_KEY then Panicked(ShowHelp)
    else if c == QUIT_SH_KEY then Exit(Quit(s))
    else if c == NEXT_SH_KEY then
      if control then Continue(HandlePlayAdvance(s, Next)) else HandlePageNav(s, Next)
    else if c == PREV_SH_KEY then
      if control then Continue(HandlePlayAdvance(s, Prev)) else HandlePageNav(s, Prev)
    else if c == SEEK_F_KEY || c == SEEK_B_KEY then Continue(Silent(s))
    else if c == TOGGLE_PAUSE_KEY then Continue(Reaction(s, false, TogglePause))
    else Continue(Silent(s))
  }

  /**
   * The `KeyCode` dispatch of the listener loop. In the search bar every
   * character is typed into the query; elsewhere the single-character
   * shortcuts apply. Only `q` outside the search bar leaves the loop, and
   * the cursor stays on an existing row.
   */
  function HandleKey(env: Env, s: State, key: Key): (o: Outcome)
    requires env.Valid()
    ensures o.Exit? <==> IsQuit(s, Press(key))
    ensures o.Exit? ==> o.reaction == Reaction(s.(active := Window.None), true, NoEffect)
    ensures o.Panicked? <==> KeyPanics(env, s, key)
    ensures !o.Panicked? && WellFormed(env, s) ==> WellFormed(env, o.reaction.state)
    ensures key.code in {Down, PageDown} ==> o == Continue(HandleDown(env, s))
    ensures key.code in {Up, PageUp} ==> o == Continue(HandleUp(env, s))
    ensures key.code in {Right, Tab} ==> o == Continue(MoveToNextWindow(env, s))
    ensures key.code in {Left, BackTab} ==> o == Continue(MoveToPrevWindow(env, s))
    ensures key.code == Esc ==> o == Continue(HandleEsc(env, s))
    ensures key.code == Enter && SidebarEnterReady(env, s) ==> o == Continue(HandleEnter(env, s))
    ensures key.code in {Backspace, Delete} ==> o == Continue(HandleBackspace(env, s))
    ensures key.code.Char? && s.active == Window.Searchbar ==> o == Continue(HandleSearchInput(s, key.code.c))
    ensures key.code.Char? && s.active != Window.Searchbar ==> o == HandleShortcut(s, key.code.c, key.control)
    ensures key.code == OtherKey ==> o == Continue(Silent(s))
  {
    match key.code
    case Down | PageDown => Continue(HandleDown(env, s))
    case Up | PageUp => Continue(HandleUp(env, s))
    case Right | Tab => Continue(MoveToNextWindow(env, s))
    case Left | BackTab => Continue(MoveToPrevWindow(env, s))
    case Esc => Continue(HandleEsc(env, s))
    case Enter =>
      if SidebarEnterReady(env, s) then Continue(HandleEnter(env, s)) else Panicked(NoSidebarSelection)
    case Backspace | Delete => Continue(HandleBackspace(env, s))
    case Char(c) =>
      if s.active == Window.Searchbar then Continue(HandleSearchInput(s, c))
      else HandleShortcut(s, c, key.control)
    case OtherKey => Continue(Silent(s))
  }

  /**
   * One turn of the listener loop: a key press is dispatched, a resize or a
   * poll timeout wakes the observers, the mouse is ignored. The loop ends
   * exactly on the quit shortcut, a step panics exactly on the events
   * `Panics` names, and the sidebar cursor stays on an existing row.
   */
  function Step(env: Env, s: State, ev: Event): (o: Outcome)
    requires env.Valid()
    ensures o.Exit? <==> IsQuit(s, ev)
    ensures o.Exit? ==> o.reaction == Reaction(s.(active := Window.None), true, NoEffect)
    ensures o.Panicked? <==> Panics(env, s, ev)
    ensures !o.Panicked? && WellFormed(env, s) ==> WellFormed(env, o.reaction.state)
    ensures !ev.Press? ==> o.Continue? && o.reaction.state == s && o.reaction.effect == NoEffect
  {
    match ev
    case Press(key) => HandleKey(env, s, key)
    case Resize => Continue(Notify(s))
    case Mouse => Continue(Silent(s))
    case Tick => Continue(Notify(s))
  }

  /** How a run of the listener loop over a finite stretch of input ended. */
  datatype Stop = Drained | Quitted | Aborted(cause: Panic)

  /**
   * Where a run stands: the state, how many events were read, how many
   * wake-ups the observers got, and whether the loop has stopped.
   */
  datatype Progress = Progress(state: State, used: nat, notifications: nat, stop: Stop)

  /**
   * One more event for a run: a stopped run reads nothing more; otherwise
   * the event is stepped, counted, and may stop the run. After a quit the
   * focus is gone; after a panic the state is the one the fatal event met.
   */
  function Feed(env: Env, p: Progress, ev: Event): (r: Progress)
    requires env.Valid()
    ensures !p.stop.Drained? ==> r == p
    ensures p.stop.Drained? ==> r.used == p.used + 1 && r.notifications <= p.notifications + 1
    ensures p.stop.Drained? ==> (r.stop.Quitted? <==> IsQuit(p.state, ev))
    ensures p.stop.Drained? ==> (r.stop.Aborted? <==> Panics(env, p.state, ev))
    ensures p.stop.Drained? && r.stop.Quitted? ==> r.state == p.state.(active := Window.None)
    ensures p.stop.Drained? && r.stop.Aborted? ==> r.state == p.state
    ensures WellFormed(env, p.state) ==> WellFormed(env, r.state)
  {
    if !p.stop.Drained? then p
    else
      match Step(env, p.state, ev)
      case Continue(r) => Progress(r.state, p.used + 1, p.notifications + (if r.notified then 1 else 0), Drained)
      case Exit(r) => Progress(r.state, p.used + 1, p.notifications + 1, Quitted)
      case Panicked(cause) => Progress(p.state, p.used + 1, p.notifications, Aborted(cause))
  }

  /** The run of the listener loop over `events`, fed one event at a time from the front. */
  function Run(env: Env, s0: State, events: seq<Event>): (p: Progress)
    requires env.Valid()
    ensures p.used <= |events| && p.notifications <= p.used
    ensures p.stop.Drained? ==> p.used == |events|
    ensures p.stop.Quitted? ==> p.state.active == Window.None
    ensures WellFormed(env, s0) ==> WellFormed(env, p.state)
    decreases |events|
  {
    if |events| == 0 then Progress(s0, 0, 0, Drained)
    else Feed(env, Run(env, s0, events[..|events| - 1]), events[|events| - 1])
  }

  /**
   * A run that stopped did so at the last event it read, and at the first
   * quit or panic: the run over the events before it had not stopped, and
   * that event quit or panicked in the state the loop had reached.
   */
  lemma {:induction false} RunStopsAtFirst(env: Env, s0: State, events: seq<Event>)
    requires env.Valid()
    ensures var p := Run(env, s0, events);
            !p.stop.Drained? ==>
              && 0 < p.used
              && var q := Run(env, s0, events[..p.used - 1]);
              && q.stop.Drained? && q.used == p.used - 1
              && (p.stop.Quitted? <==> IsQuit(q.state, events[p.used - 1]))
              && (p.stop.Aborted? <==> Panics(env, q.state, events[p.used - 1]))
              && (p.stop.Quitted? ==> p.state == q.state.(active := Window.None))
              && (p.stop.Aborted? ==> p.state == q.state)
  {
    if |events| > 0 {
      var n := |events|;
      var front := events[..n - 1];
      var before := Run(env, s0, front);
      if !before.stop.Drained? {
        RunStopsAtFirst(env, s0, front);
        assert front[..before.used - 1] == events[..before.used - 1];
        assert front[before.used - 1] == events[before.used - 1];
      } else {
        assert before.used == n - 1;
      }
    }
  }

  /** A run that drained the input met no quit and no panic on the way. */
  lemma {:induction false} RunDrainedMeetsNoStop(env: Env, s0: State, events: seq<Event>)
    requires env.Valid()
    ensures Run(env, s0, events).stop.Drained? ==>
              forall k :: 0 <= k < |events| ==>
                var q := Run(env, s0, events[..k]);
                !IsQuit(q.state, events[k]) && !Panics(env, q.state, events[k])
  {
    if |events| > 0 && Run(env, s0, events).stop.Drained? {
      var n := |events|;
      var front := events[..n - 1];
      RunDrainedMeetsNoStop(env, s0, front);
      forall k | 0 <= k < n
        ensures var q := Run(env, s0, events[..k]);
                !IsQuit(q.state, events[k]) && !Panics(env, q.state, events[k])
      {
        if k < n - 1 {
          assert front[..k] == events[..k];
        } else {
          assert events[..k] == front;
        }
      }
    }
  }

  /** Events after a quit or a panic are never read. */
  lemma {:induction false} StoppedRunIgnoresRest(env: Env, s0: State, events: seq<Event>, rest: seq<Event>)
    requires env.Valid() && !Run(env, s0, events).stop.Drained?
    ensures Run(env, s0, events + rest) == Run(env, s0, events)
    decreases |rest|
  {
    if |rest| > 0 {
      var all := events + rest;
      var shorter := rest[..|rest| - 1];
      assert all[..|all| - 1] == events + shorter;
      StoppedRunIgnoresRest(env, s0, events, shorter);
    } else {
      assert events + rest == events;
    }
  }

  /** The quit key as the first event ends the run there, whatever follows. */
  lemma QuitFirstEndsRun(env: Env, s0: State, events: seq<Event>)
    requires env.Valid() && |events| > 0 && IsQuit(s0, events[0])
    ensures Run(env, s0, events) == Progress(s0.(active := Window.None), 1, 1, Quitted)
  {
    var first := events[..1];
    assert first[..0] == [];
    StoppedRunIgnoresRest(env, s0, first, events[1..]);
    assert first + events[1..] == events;
  }

  /**
   * The listener loop run over the events `events`: it stops after the quit
   * shortcut, at a panic, or when the events run out, and it ends exactly
   * where the reference run `Run` does.
   */
  method Listen(env: Env, s0: State, events: seq<Event>)
    returns (s: State, used: nat, notifications: nat, stop: Stop)
    requires env.Valid()
    ensures Progress(s, used, notifications, stop) == Run(env, s0, events)
    ensures WellFormed(env, s0) ==> WellFormed(env, s)
  {
    s, used, notifications, stop := s0, 0, 0, Drained;
    while used < |events|
      invariant used <= |events|
      invariant Run(env, s0, events[..used]) == Progress(s, used, notifications, Drained)
      decreases |events| - used
    {
      var o := Step(env, s, events[used]);
      assert events[..used + 1][..used] == events[..used];
      used := used + 1;
      match o
      case Continue(r) =>
        s := r.state;
        if r.notified { notifications := notifications + 1; }
      case Exit(r) =>
        s := r.state;
        notifications := notifications + 1;
        stop := Quitted;
        StoppedRunIgnoresRest(env, s0, events[..used], events[used..]);
        assert events[..used] + events[used..] == events;
        return;
      case Panicked(cause) =>
        stop := Aborted(cause);
        StoppedRunIgnoresRest(env, s0, events[..used], events[used..]);
        assert events[..used] + events[used..] == events;
        return;
    }
    assert events[..used] == events;
  }
}

=== FILE: navigation.dfy ===
/**
 * The pure navigation arithmetic of the input handler: circular successor and
 * predecessor of a cursor index, selection by rotating a list so that its
 * front is the selected row, and the next page number to request.
 */
module Navigation {
  import opened Wrappers

  /** Where a navigation step heads: stay (or start over), forward or back. */
  datatype HeadTo = Initial | Next | Prev

  /**
   * Circular successor / predecessor of `current` among `limit` positions.
   * `Prev` of 0 wraps to `limit - 1`; `Initial` leaves the index alone.
   * The caller guarantees `limit > 0` (the source computes `limit - 1` and
   * `% limit`, both of which panic on 0).
   */
  function AdvanceIndex(current: nat, limit: nat, direction: HeadTo): (r: nat)
    requires limit > 0
    ensures direction.Initial? ==> r == current
    ensures !direction.Initial? ==> r < limit
    ensures current < limit ==> r < limit
    ensures direction.Next? && current + 1 < limit ==> r == current + 1
    ensures direction.Next? && current + 1 == limit ==> r == 0
    ensures direction.Prev? && 0 < current <= limit ==> r + 1 == current
    ensures direction.Prev? && current == 0 ==> r == limit - 1
  {
    match direction
    case Next =>
      ModSmall(current + 1, limit);
      (current + 1) % limit
    case Prev =>
      var back := if current >= 1 then current - 1 else limit - 1;
      ModSmall(back, limit);
      back % limit
    case Initial => current
  }

  /** Reducing a value that is at most the modulus. */
  lemma ModSmall(x: nat, n: nat)
    requires n > 0
    ensures x < n ==> x % n == x
    ensures x == n ==> x % n == 0
  {
    if x < n {
      ModUnique(x, n, 0, x);
    } else if x == n {
      ModUnique(x, n, 1, 0);
    }
  }

  /** Stepping forward and then back (or back and then forward) is the identity. */
  lemma IndexRoundTrip(current: nat, limit: nat)
    requires 0 < limit && current < limit
    ensures AdvanceIndex(AdvanceIndex(current, limit, Next), limit, Prev) == current
    ensures AdvanceIndex(AdvanceIndex(current, limit, Prev), limit, Next) == current
  {
  }

  /** The result of `AdvanceList`: whether the list moved, and the list afterwards. */
  datatype Advanced<T> = Advanced(changed: bool, list: seq<T>)

  /**
   * Moves the selection of a list whose front element is the selected one,
   * by rotating it one place left (`Next`) or right (`Prev`). The answer
   * `changed` tells the caller whether to notify observers.
   */
  function AdvanceList<T>(list: seq<T>, direction: HeadTo): (r: Advanced<T>)
    ensures r.changed <==> |list| > 0 && !direction.Initial?
    ensures !r.changed ==> r.list == list
    ensures |r.list| == |list|
    ensures multiset(r.list) == multiset(list)
  {
    if |list| == 0 then Advanced(false, list)
    else
      match direction
      case Next =>
        assert list == [list[0]] + list[1..];
        Advanced(true, list[1..] + [list[0]])
      case Prev =>
        assert list == list[..|list| - 1] + [list[|list| - 1]];
        Advanced(true, [list[|list| - 1]] + list[..|list| - 1])
      case Initial => Advanced(false, list)
  }

  /**
   * Rotation and index arithmetic agree: after a move, row `i` holds what row
   * `AdvanceIndex(i, n, direction)` held, so the new front (the selection) is
   * the old row at the successor or predecessor of 0.
   */
  lemma AdvanceListIndex<T>(list: seq<T>, direction: HeadTo, i: nat)
    requires i < |list|
    ensures AdvanceList(list, direction).list[i] == list[AdvanceIndex(i, |list|, direction)]
  {
  }

  /** Rotating forward and then back restores the list, and so does back then forward. */
  lemma {:induction false} ListRoundTrip<T>(list: seq<T>)
    ensures AdvanceList(AdvanceList(list, Next).list, Prev).list == list
    ensures AdvanceList(AdvanceList(list, Prev).list, Next).list == list
  {
    if |list| > 0 {
      var n := |list|;
      var fwd := AdvanceList(list, Next).list;
      var back := AdvanceList(list, Prev).list;
      forall i | 0 <= i < n
        ensures AdvanceList(fwd, Prev).list[i] == list[i]
        ensures AdvanceList(back, Next).list[i] == list[i]
      {
        IndexRoundTrip(i, n);
        AdvanceListIndex(fwd, Prev, i);
        AdvanceListIndex(list, Next, AdvanceIndex(i, n, Prev));
        AdvanceListIndex(back, Next, i);
        AdvanceListIndex(list, Prev, AdvanceIndex(i, n, Next));
      }
    }
  }

  /** The list after `k` presses of the same navigation key. */
  function Rotate<T>(list: seq<T>, direction: HeadTo, k: nat): (r: seq<T>)
    ensures |r| == |list|
    decreases k
  {
    if k == 0 then list else Rotate(AdvanceList(list, direction).list, direction, k - 1)
  }

  /** After `k` presses of `Next`, row `i` shows what row `(i + k) mod n` showed. */
  lemma {:induction false} RotateNextShifts<T>(list: seq<T>, k: nat, i: nat)
    requires i < |list|
    ensures Rotate(list, Next, k)[i] == list[(i + k) % |list|]
    decreases k
  {
    if k == 0 {
      ModUnique(i, |list|, 0, i);
    } else {
      var moved := AdvanceList(list, Next).list;
      RotateNextShifts(moved, k - 1, i);
      ShiftStep(list, i, k);
    }
  }

  /** Row `(i + k - 1) mod n` after one `Next` is row `(i + k) mod n` before it. */
  lemma ShiftStep<T>(list: seq<T>, i: nat, k: nat)
    requires i < |list| && k > 0
    ensures AdvanceList(list, Next).list[(i + (k - 1)) % |list|] == list[(i + k) % |list|]
  {
    var j := (i + (k - 1)) % |list|;
    AdvanceListIndex(list, Next, j);
    SuccessorIndex(i + (k - 1), |list|);
  }

  /** One more `Next` on a wrapped index is the wrapped successor. */
  lemma SuccessorIndex(x: nat, n: nat)
    requires n > 0
    ensures AdvanceIndex(x % n, n, Next) == (x + 1) % n
  {
    ModSucc(x, n);
  }

  /** Pressing `Next` once per row brings the list back to where it started. */
  lemma {:induction false} FullCycle<T>(list: seq<T>)
    ensures Rotate(list, Next, |list|) == list
  {
    forall i | 0 <= i < |list|
      ensures Rotate(list, Next, |list|)[i] == list[i]
    {
      RotateNextShifts(list, |list|, i);
      ModWrap(i, |list|);
    }
  }

  lemma ModSucc(x: nat, n: nat)
    requires n > 0
    ensures (x % n + 1) % n == (x + 1) % n
  {
    var q, r := x / n, x % n;
    if r + 1 < n {
      ModUnique(x + 1, n, q, r + 1);
      ModUnique(r + 1, n, 0, r + 1);
    } else {
      ModUnique(x + 1, n, q + 1, 0);
      ModUnique(r + 1, n, 1, 0);
    }
  }

  lemma ModWrap(i: nat, n: nat)
    requires i < n
    ensures (i + n) % n == i
  {
    ModUnique(i + n, n, 1, i);
  }

  /** Euclidean division has exactly one quotient and remainder. */
  lemma ModUnique(a: int, n: int, q: int, r: int)
    requires n > 0 && 0 <= r < n && a == q * n + r
    ensures a % n == r
  {
    var q', r' := a / n, a % n;
    assert (q - q') * n == r' - r;
    if q > q' {
      MulAtLeast(q - q', n);
    } else if q < q' {
      MulAtLeast(q' - q, n);
    }
  }

  lemma MulAtLeast(d: int, n: int)
    requires d >= 1 && n > 0
    ensures d * n >= n
  {
  }

  /**
   * The page to request next, given the last page fetched (if any). A panel
   * that has never been fetched, or an `Initial` request, starts at page 0;
   * `Prev` saturates at 0 rather than underflowing.
   */
  function GetPage(current: Option<nat>, direction: HeadTo): (page: nat)
    ensures current.None? || direction.Initial? ==> page == 0
    ensures current.Some? && direction.Next? ==> page == current.value + 1
    ensures current.Some? && direction.Prev? ==>
              page <= current.value && current.value <= page + 1 && (page == current.value ==> page == 0)
  {
    match current
    case None => 0
    case Some(prev) =>
      match direction
      case Initial => 0
      case Next => prev + 1
      case Prev => if prev >= 1 then prev - 1 else 0
  }

  /** Paging forward and then back returns to the page already fetched. */
  lemma PageRoundTrip(p: nat)
    ensures GetPage(Some(GetPage(Some(p), Next)), Prev) == p
  {
  }
}

=== FILE: properties.dfy ===
/**
 * Properties of the keyboard step function: what a search commit resets,
 * how paging depends on the feed behind the focused panel, how the search
 * bar captures typing, and which fields each kind of key may change.
 */
module Properties {
  import opened Wrappers
  import opened Navigation
  import opened Text
  import opened UiState
  import opened Handlers
  import opened Listener

  /** `ev` presses the key `code`, with or without control. */
  predicate Pressed(ev: Event, code: KeyCode) {
    ev.Press? && ev.key.code == code
  }

  /** The direction a paging or play-advance key heads in. */
  function KeyDirection(ev: Event): (direction: HeadTo)
    requires ev.Press?
  {
    if ev.key.code == Char(NEXT_SH_KEY) then Next else Prev
  }

  /** The window that shows a middle panel. */
  function WindowOf(p: Panel): (w: Window) {
    match p
    case MusicPanel => Window.Musicbar
    case PlaylistPanel => Window.Playlistbar
    case ArtistPanel => Window.Artistbar
  }

  /** Panel `p` has focus and is filled by search results. */
  predicate SearchFocus(s: State, p: Panel) {
    && s.active == WindowOf(p)
    && match p
       case MusicPanel => s.filledSource.0.Search?
       case PlaylistPanel => s.filledSource.1.Search?
       case ArtistPanel => s.filledSource.2.Search?
  }

  /** The focused panel's feed has no paging: the paging keys do nothing there. */
  predicate PagingIsNoOp(s: State) {
    match s.active
    case Musicbar =>
      || s.filledSource.0 in {MusicbarSource.YoutubeCommunity, MusicbarSource.RecentlyPlayed, MusicbarSource.Favourates}
      || s.filledSource.0.Artist?
    case Playlistbar => s.filledSource.1 in {PlaylistbarSource.Favourates, PlaylistbarSource.RecentlyPlayed}
    case Artistbar => s.filledSource.2 in {ArtistbarSource.Followings, ArtistbarSource.RecentlyPlayed}
    case Searchbar => false
    case _ => true
  }

  /**
   * Enter in the search bar commits the trimmed live query, forgets every
   * page counter, empties all three panels, retags them as search results and
   * requests page 0 of every column for the committed query.
   */
  lemma SearchCommit(env: Env, s: State, ev: Event)
    requires env.Valid() && s.active == Window.Searchbar && Pressed(ev, Enter)
    ensures Step(env, s, ev) == Continue(Notify(s.(
              search := (s.search.0, Trim(s.search.0)),
              fetchedPage := [Option.None, Option.None, Option.None],
              musicbar := [], playlistbar := [], artistbar := [],
              toFetch := FillFetch.Search(Trim(s.search.0), [Some(0), Some(0), Some(0)]),
              filledSource := (MusicbarSource.Search, PlaylistbarSource.Search, ArtistbarSource.Search),
              help := SEARCHING)))
  {
    StepEnter(env, s, ev);
    EnterInSearchbar(env, s);
  }

  lemma StepEnter(env: Env, s: State, ev: Event)
    requires env.Valid() && Pressed(ev, Enter) && SidebarEnterReady(env, s)
    ensures Step(env, s, ev) == Continue(HandleEnter(env, s))
  {
  }

  lemma EnterInSearchbar(env: Env, s: State)
    requires s.active == Window.Searchbar
    ensures var r := HandleEnter(env, s);
            var t := r.state;
            && r.notified && r.effect == NoEffect
            && t.search == (s.search.0, Trim(s.search.0))
            && t.fetchedPage == [Option.None, Option.None, Option.None]
            && t.musicbar == [] && t.playlistbar == [] && t.artistbar == []
            && t.toFetch == FillFetch.Search(Trim(s.search.0), [Some(0), Some(0), Some(0)])
            && t.filledSource == (MusicbarSource.Search, PlaylistbarSource.Search, ArtistbarSource.Search)
            && t.help == SEARCHING
            && t.active == s.active && t.sidebar == s.sidebar
  {
    var cleared := s.(search := (s.search.0, Trim(s.search.0)), fetchedPage := NO_PAGES,
                      musicbar := [], playlistbar := [], artistbar := []);
    assert HandleEnter(env, s) == FillSearch(cleared, Initial, AllColumns);
    var pages := FillSearchCore(cleared, Initial, AllColumns.Columns()).state.toFetch.pages;
    assert pages[MusicPanel.Index()] == Some(0);
    assert pages[PlaylistPanel.Index()] == Some(0);
    assert pages[ArtistPanel.Index()] == Some(0);
  }

  /** The committed query is the live one without its surrounding blanks. */
  lemma SearchCommitTrims(env: Env, s: State, ev: Event)
    requires env.Valid() && s.active == Window.Searchbar && Pressed(ev, Enter) && s.search.0 == "  lofi  "
    ensures Step(env, s, ev).reaction.state.search.1 == "lofi"
  {
    SearchCommit(env, s, ev);
    TrimLofi();
  }

  lemma TrimLofi()
    ensures Trim("  lofi  ") == "lofi"
  {
    var q := "  lofi  ";
    assert LeadingBlanks(q) == 2 by {
      assert IsWhitespace(q[0]) && q[1..] == " lofi  ";
      assert IsWhitespace(q[1..][0]) && q[1..][1..] == "lofi  ";
      assert !IsWhitespace("lofi  "[0]);
    }
    assert TrailingBlanks(q) == 2 by {
      assert IsWhitespace(q[7]) && q[..7] == "  lofi ";
      assert IsWhitespace(q[..7][6]) && q[..7][..6] == "  lofi";
      assert !IsWhitespace("  lofi"[5]);
    }
    assert q[2..6] == "lofi";
  }

  /**
   * Paging a panel filled by search results requests, for the committed query,
   * exactly that panel's column at the page after (or before) its last fetched
   * one. The page counters stay as they are, and the music panel is tagged as
   * a search result whichever panel was paged.
   */
  lemma SearchPaging(env: Env, s: State, ev: Event, p: Panel)
    requires env.Valid() && IsPageKey(ev) && SearchFocus(s, p)
    ensures var o := Step(env, s, ev);
            var t := o.reaction.state;
            && o.Continue? && o.reaction.notified
            && t.toFetch.Search? && t.toFetch.query == s.search.1
            && (forall q: Panel :: t.toFetch.pages[q.Index()] ==
                  if q == p then Some(GetPage(s.fetchedPage[q.Index()], KeyDirection(ev))) else Option.None)
            && t.fetchedPage == s.fetchedPage
            && t.filledSource == (MusicbarSource.Search, s.filledSource.1, s.filledSource.2)
            && t == s.(toFetch := t.toFetch, help := SEARCHING, filledSource := t.filledSource)
  {
  }

  /**
   * Paging the music panel: a trending feed requests the neighbouring trending
   * page without recording it; a playlist feed records the neighbouring page as
   * fetched and requests the playlist again.
   */
  lemma MusicPaging(env: Env, s: State, ev: Event)
    requires env.Valid() && IsPageKey(ev) && s.active == Window.Musicbar
    ensures var o := Step(env, s, ev);
            var page := GetPage(s.fetchedPage[MIDDLE_MUSIC_INDEX], KeyDirection(ev));
            && o.Continue? && o.reaction.effect == NoEffect
            && (s.filledSource.0.Trending? ==>
                  o.reaction == Notify(s.(toFetch := FillFetch.Trending(page), help := FETCHING)))
            && (s.filledSource.0.Playlist? ==>
                  o.reaction == Notify(s.(fetchedPage := s.fetchedPage[MIDDLE_MUSIC_INDEX := Some(page)],
                                          toFetch := FillFetch.Playlist)))
  {
  }

  /**
   * The paging keys change nothing and notify nobody exactly when the focused
   * panel's feed has no paging (or no middle panel has focus).
   */
  lemma PagingNoOp(env: Env, s: State, ev: Event)
    requires env.Valid() && IsPageKey(ev)
    requires !(s.active == Window.Playlistbar && s.filledSource.1.Artist?)
    ensures Step(env, s, ev) == Continue(Silent(s)) <==> PagingIsNoOp(s)
  {
  }

  /** The scenario of a trending music panel at page 2: `n` requests trending page 3. */
  lemma TrendingNextPage(env: Env, s: State, ev: Event)
    requires env.Valid() && s.active == Window.Musicbar && s.filledSource.0.Trending?
    requires s.fetchedPage[MIDDLE_MUSIC_INDEX] == Some(2)
    requires ev == Press(Key(Char(NEXT_SH_KEY), false))
    ensures Step(env, s, ev).reaction.state.toFetch == FillFetch.Trending(3)
  {
  }

  /**
   * In the search bar every character, control held or not, is appended to
   * the live query; no shortcut fires, so `q` does not quit.
   */
  lemma SearchbarCapturesTyping(env: Env, s: State, c: char, ev: Event)
    requires env.Valid() && s.active == Window.Searchbar && Pressed(ev, Char(c))
    ensures var o := Step(env, s, ev);
            && o.Continue? && o.reaction.notified && o.reaction.effect == NoEffect
            && o.reaction.state == s.(search := (s.search.0 + [c], s.search.1))
  {
  }

  /** Typing a character and erasing it with Backspace or Delete restores the state. */
  lemma TypeThenErase(env: Env, s: State, c: char, typed: Event, erase: Event)
    requires env.Valid() && s.active == Window.Searchbar
    requires Pressed(typed, Char(c)) && (Pressed(erase, Backspace) || Pressed(erase, Delete))
    ensures var t := Step(env, s, typed).reaction.state;
            Step(env, t, erase) == Continue(Notify(s))
  {
    var t := Step(env, s, typed).reaction.state;
    PopAfterPush(s.search.0, c);
    assert t.(search := (Pop(t.search.0), t.search.1)) == s;
  }

  /** Backspace edits only in the search bar; anywhere else it focuses the previous window. */
  lemma BackspaceOutsideSearch(env: Env, s: State, erase: Event)
    requires env.Valid() && s.active != Window.Searchbar
    requires Pressed(erase, Backspace) || Pressed(erase, Delete)
    ensures Step(env, s, erase) == Continue(Notify(s.(active := env.prev(s.active))))
  {
  }

  /**
   * Esc acts only in the search bar, where it clears the live query (keeping
   * the committed one) and focuses the next window; elsewhere nothing happens.
   */
  lemma EscOnlyInSearch(env: Env, s: State, ev: Event)
    requires env.Valid() && Pressed(ev, Esc)
    ensures var o := Step(env, s, ev);
            && o.Continue?
            && (o.reaction.notified <==> s.active == Window.Searchbar)
            && (s.active == Window.Searchbar ==>
                  o.reaction.state == s.(active := env.next(Window.Searchbar), search := ("", s.search.1)))
            && (s.active != Window.Searchbar ==> o.reaction == Silent(s))
  {
  }

  /** Outside the search bar, `q` with or without control sets the sentinel focus and ends the loop. */
  lemma QuitOutsideSearch(env: Env, s: State, ev: Event)
    requires env.Valid() && s.active != Window.Searchbar && Pressed(ev, Char(QUIT_SH_KEY))
    ensures Step(env, s, ev) == Exit(Notify(s.(active := Window.None)))
  {
  }

  /** The navigation keys only move focus or a selection: no feed, page, query or request changes. */
  predicate IsNavigationKey(ev: Event) {
    ev.Press? && ev.key.code in {Down, PageDown, Up, PageUp, Right, Tab, Left, BackTab}
  }

  lemma NavigationKeepsData(env: Env, s: State, ev: Event)
    requires env.Valid() && IsNavigationKey(ev)
    ensures var o := Step(env, s, ev);
            var t := o.reaction.state;
            && o.Continue?
            && t.filledSource == s.filledSource && t.fetchedPage == s.fetchedPage
            && t.search == s.search && t.toFetch == s.toFetch && t.help == s.help
  {
  }

  lemma StepDown(env: Env, s: State, ev: Event)
    requires env.Valid() && (Pressed(ev, Down) || Pressed(ev, PageDown))
    ensures Step(env, s, ev) == Continue(HandleDown(env, s))
  {
  }

  lemma StepUp(env: Env, s: State, ev: Event)
    requires env.Valid() && (Pressed(ev, Up) || Pressed(ev, PageUp))
    ensures Step(env, s, ev) == Continue(HandleUp(env, s))
  {
  }

  /**
   * In the search bar, the help window or with no focus, Up and Down do what
   * BackTab and Tab do: focus the previous or the next window.
   */
  lemma UpDownOutsideLists(env: Env, s: State, up: Event, down: Event, backTab: Event, tab: Event)
    requires env.Valid() && s.active != Window.Sidebar && !IsListWindow(s.active)
    requires Pressed(up, Up) && Pressed(down, Down) && Pressed(backTab, BackTab) && Pressed(tab, Tab)
    ensures Step(env, s, up) == Step(env, s, backTab) == Continue(Notify(s.(active := env.prev(s.active))))
    ensures Step(env, s, down) == Step(env, s, tab) == Continue(Notify(s.(active := env.next(s.active))))
  {
    StepUp(env, s, up);
    StepDown(env, s, down);
  }

  /**
   * On the sidebar, Down moves the cursor from row `i` (an unset cursor counts
   * as row 0) to the next row, wrapping to the first, and Up to the previous
   * row, wrapping to the last; the cursor is set afterwards.
   */
  lemma SidebarMoves(env: Env, s: State, down: Event, up: Event)
    requires env.Valid() && s.active == Window.Sidebar && s.sidebar.GetOr(0) < env.sidebarCount
    requires Pressed(down, Down) && Pressed(up, Up)
    ensures var i := s.sidebar.GetOr(0);
            var n := env.sidebarCount;
            && Step(env, s, down) == Continue(Notify(s.(sidebar := Some(if i + 1 < n then i + 1 else 0))))
            && Step(env, s, up) == Continue(Notify(s.(sidebar := Some(if i == 0 then n - 1 else i - 1))))
  {
    StepDown(env, s, down);
    StepUp(env, s, up);
  }

  /**
   * In a list window, Down makes the row after the selected one (circularly)
   * the selection and Up the row before it, without losing or adding rows.
   */
  lemma SelectionMoves(env: Env, s: State, down: Event, up: Event)
    requires env.Valid() && IsListWindow(s.active) && |Rows(s, PanelOf(s.active))| > 0
    requires Pressed(down, Down) && Pressed(up, Up)
    ensures var p := PanelOf(s.active);
            var rows := Rows(s, p);
            var afterDown := Rows(Step(env, s, down).reaction.state, p);
            var afterUp := Rows(Step(env, s, up).reaction.state, p);
            && afterDown[0] == rows[AdvanceIndex(0, |rows|, Next)]
            && afterUp[0] == rows[|rows| - 1]
            && multiset(afterDown) == multiset(rows) && multiset(afterUp) == multiset(rows)
  {
    var p := PanelOf(s.active);
    var rows := Rows(s, p);
    StepDown(env, s, down);
    StepUp(env, s, up);
    AdvanceListIndex(rows, Next, 0);
    AdvanceListIndex(rows, Prev, 0);
  }

  /** Down and then Up puts the sidebar cursor or a panel's selection back where it was. */
  lemma DownThenUp(env: Env, s: State, down: Event, up: Event)
    requires env.Valid() && (s.active == Window.Sidebar ==> WellFormed(env, s))
    requires s.active == Window.Sidebar || IsListWindow(s.active)
    requires Pressed(down, Down) && Pressed(up, Up)
    ensures Step(env, Step(env, s, down).reaction.state, up).reaction.state == s
  {
    StepDown(env, s, down);
    var t := HandleDown(env, s).state;
    StepUp(env, t, up);
    if s.active == Window.Sidebar {
      IndexRoundTrip(s.sidebar.value, env.sidebarCount);
    } else {
      var p := PanelOf(s.active);
      ListRoundTrip(Rows(s, p));
      assert Rows(HandleUp(env, t).state, p) == Rows(s, p);
    }
  }

  /**
   * Outside the search bar, control with `n` or `p` moves the music selection
   * forward or back and then plays the new front row, whatever panel has focus.
   */
  lemma PlayAdvance(env: Env, s: State, ev: Event)
    requires env.Valid() && s.active != Window.Searchbar
    requires ev.Press? && ev.key.control && (ev.key.code == Char(NEXT_SH_KEY) || ev.key.code == Char(PREV_SH_KEY))
    ensures var o := Step(env, s, ev);
            var moved := AdvanceList(s.musicbar, KeyDirection(ev));
            o == Continue(Reaction(s.(musicbar := moved.list), moved.changed, PlayFirstOfMusicbar))
  {
  }

  /**
   * Enter on the sidebar, by the option under the cursor: Trending restarts the
   * music panel's trending feed at page 0; the community, favourites and
   * recently-played options retag and clear panels but request and notify
   * nothing; Search focuses the search bar without a request. With no cursor,
   * or one the option conversion rejects, the program panics.
   */
  lemma SidebarEnter(env: Env, s: State, ev: Event)
    requires env.Valid() && s.active == Window.Sidebar && Pressed(ev, Enter)
    ensures var o := Step(env, s, ev);
            var fs := s.filledSource;
            && (s.sidebar.None? ==> o == Panicked(NoSidebarSelection))
            && (s.sidebar.Some? && env.sidebarOption(s.sidebar.value).None? ==> o == Panicked(NoSidebarSelection))
            && (s.sidebar.Some? && env.sidebarOption(s.sidebar.value).Some? ==>
                  var option := env.sidebarOption(s.sidebar.value).value;
                  && o.Continue? && o.reaction.effect == NoEffect
                  && (option == SidebarOption.Trending ==>
                        o.reaction == Notify(s.(filledSource := (MusicbarSource.Trending, fs.1, fs.2), musicbar := [],
                                                fetchedPage := s.fetchedPage[MIDDLE_MUSIC_INDEX := Option.None],
                                                toFetch := FillFetch.Trending(0), help := FETCHING)))
                  && (option == SidebarOption.YoutubeCommunity ==>
                        o.reaction == Silent(s.(filledSource := (MusicbarSource.YoutubeCommunity, fs.1, fs.2), musicbar := [])))
                  && (option == SidebarOption.Favourates ==>
                        o.reaction == Silent(s.(filledSource := (MusicbarSource.Favourates, PlaylistbarSource.Favourates, ArtistbarSource.Followings),
                                                musicbar := [], playlistbar := [], artistbar := [])))
                  && (option == SidebarOption.RecentlyPlayed ==>
                        o.reaction == Silent(s.(filledSource := (MusicbarSource.RecentlyPlayed, PlaylistbarSource.RecentlyPlayed, ArtistbarSource.RecentlyPlayed),
                                                musicbar := [], playlistbar := [], artistbar := [])))
                  && (option == SidebarOption.Search ==> o.reaction == Notify(s.(active := Window.Searchbar)))
                  && (option == SidebarOption.None ==> o.reaction == Silent(s)))
  {
    if SidebarEnterReady(env, s) {
      StepEnter(env, s, ev);
    }
  }

  /**
   * Enter on the playlist panel opens the selected (front) playlist in the
   * music panel: retag, clear the rows, and request its page 0, which is
   * recorded as fetched. With no playlist shown nothing happens.
   */
  lemma PlaylistEnter(env: Env, s: State, ev: Event)
    requires env.Valid() && s.active == Window.Playlistbar && Pressed(ev, Enter)
    ensures var o := Step(env, s, ev);
            && (|s.playlistbar| == 0 ==> o == Continue(Silent(s)))
            && (|s.playlistbar| > 0 ==>
                  o == Continue(Notify(s.(filledSource := (MusicbarSource.Playlist(s.playlistbar[0].id), s.filledSource.1, s.filledSource.2),
                                          musicbar := [],
                                          fetchedPage := s.fetchedPage[MIDDLE_MUSIC_INDEX := Some(0)],
                                          toFetch := FillFetch.Playlist))))
  {
    StepEnter(env, s, ev);
  }

  /**
   * Enter on the artist panel opens the selected (front) artist: the music and
   * playlist panels are retagged with that artist and cleared, the music page
   * counter is forgotten and the playlist one set to page 0. No request is
   * written: the outstanding request stays what it was.
   */
  lemma ArtistEnter(env: Env, s: State, ev: Event)
    requires env.Valid() && s.active == Window.Artistbar && Pressed(ev, Enter)
    ensures var o := Step(env, s, ev);
            && (|s.artistbar| == 0 ==> o == Continue(Silent(s)))
            && (|s.artistbar| > 0 ==>
                  var id := s.artistbar[0].id;
                  o == Continue(Notify(s.(filledSource := (MusicbarSource.Artist(id), PlaylistbarSource.Artist(id), s.filledSource.2),
                                          musicbar := [], playlistbar := [],
                                          fetchedPage := [Option.None, Some(0), s.fetchedPage[MIDDLE_ARTIST_INDEX]]))))
  {
    StepEnter(env, s, ev);
  }

  /** Enter on the music panel plays its front row; it changes and notifies nothing itself. */
  lemma MusicEnter(env: Env, s: State, ev: Event)
    requires env.Valid() && s.active == Window.Musicbar && Pressed(ev, Enter)
    ensures Step(env, s, ev) == Continue(Reaction(s, false, PlayFirstOfMusicbar))
  {
    StepEnter(env, s, ev);
  }

  /** A poll timeout or a resize only wakes the observers; the mouse is ignored. */
  lemma RefreshEvents(env: Env, s: State)
    requires env.Valid()
    ensures Step(env, s, Tick) == Continue(Notify(s))
    ensures Step(env, s, Resize) == Continue(Notify(s))
    ensures Step(env, s, Mouse) == Continue(Silent(s))
  {
  }

  /** The feed tag of a panel changed only together with clearing its rows. */
  predicate RetagClears(s: State, t: State) {
    && (t.filledSource.0 != s.filledSource.0 ==> t.musicbar == [])
    && (t.filledSource.1 != s.filledSource.1 ==> t.playlistbar == [])
    && (t.filledSource.2 != s.filledSource.2 ==> t.artistbar == [])
  }

  /**
   * Rows always belong to their panel's current feed: a step that retags a
   * panel also clears it, except when paging a search-filled playlist or
   * artist panel, which retags the music panel without clearing it.
   */
  lemma RetagClearsRows(env: Env, s: State, ev: Event)
    requires env.Valid()
    requires !(IsPageKey(ev) && (s.active == Window.Playlistbar || s.active == Window.Artistbar))
    ensures var o := Step(env, s, ev);
            o.Panicked? || RetagClears(s, o.reaction.state)
  {
    if Pressed(ev, Enter) && SidebarEnterReady(env, s) {
      StepEnter(env, s, ev);
    }
  }

  /**
   * The exception: a music panel showing a playlist keeps its rows when the
   * search-filled playlist panel is paged, yet is retagged as a search result.
   */
  lemma PlaylistPagingRetagsMusic(env: Env, s: State, ev: Event)
    requires env.Valid() && IsPageKey(ev) && s.active == Window.Playlistbar
    requires s.filledSource.1.Search? && s.filledSource.0.Playlist? && |s.musicbar| > 0
    ensures var t := Step(env, s, ev).reaction.state;
            && t.filledSource.0 == MusicbarSource.Search && t.filledSource.0 != s.filledSource.0
            && t.musicbar == s.musicbar && !RetagClears(s, t)
  {
  }

  /**
   * Only Enter and the paging keys, pressed outside the search bar, touch the
   * request, the page counters or the feed tags.
   */
  lemma DataChangesOnlyOnCommitOrPaging(env: Env, s: State, ev: Event)
    requires env.Valid()
    requires !Step(env, s, ev).Panicked?
    ensures var t := Step(env, s, ev).reaction.state;
            t.toFetch != s.toFetch || t.fetchedPage != s.fetchedPage || t.filledSource != s.filledSource ==>
              Pressed(ev, Enter) || (IsPageKey(ev) && s.active != Window.Searchbar)
  {
  }
}

=== FILE: state.dfy ===
/**
 * The part of the shared UI state record that the keyboard handler reads and
 * writes, together with the types it is built from. The record is modelled
 * as an immutable value; the lock that guards it in the program is replaced
 * by handing the whole value from one step to the next.
 */
module UiState {
  import opened Wrappers

  /** Slots of the per-panel arrays `fetched_page` and the search page array. */
  const MIDDLE_MUSIC_INDEX: nat := 0
  const MIDDLE_PLAYLIST_INDEX: nat := 1
  const MIDDLE_ARTIST_INDEX: nat := 2

  /** One optional page number per middle panel (music, playlist, artist). */
  type PageArray = p: seq<Option<nat>> | |p| == 3 witness [Option.None, Option.None, Option.None]

  const NO_PAGES: PageArray := [Option.None, Option.None, Option.None]

  /** The focused panel; `None` is the sentinel that tells every thread to stop. */
  datatype Window = None | Sidebar | Musicbar | Playlistbar | Artistbar | Searchbar | Helpbar

  /** What a sidebar row stands for. */
  datatype SidebarOption = Trending | YoutubeCommunity | Favourates | RecentlyPlayed | Search | None

  /** Which feed fills the music panel. */
  datatype MusicbarSource =
    | Trending
    | YoutubeCommunity
    | RecentlyPlayed
    | Favourates
    | Search
    | Playlist(playlistId: string)
    | Artist(artistId: string)

  /** Which feed fills the playlist panel. */
  datatype PlaylistbarSource = Search | Artist(artistId: string) | Favourates | RecentlyPlayed

  /** Which feed fills the artist panel. */
  datatype ArtistbarSource = Followings | Search | RecentlyPlayed

  /**
   * The outstanding request for the fetch worker; a new request overwrites
   * the old one. `Unmodelled` stands for every request kind the keyboard
   * handler never writes.
   */
  datatype FillFetch =
    | Trending(page: nat)
    | Search(query: string, pages: PageArray)
    | Playlist
    | Unmodelled

  /** A displayed row of a panel; only its identifier matters to the handler. */
  datatype Row = Row(id: string, title: string)

  /**
   * The shared record. The three panel lists keep their selected row at the
   * front; `search` is (live query, committed query).
   */
  datatype State = State(
    active: Window,
    sidebar: Option<nat>,
    musicbar: seq<Row>,
    playlistbar: seq<Row>,
    artistbar: seq<Row>,
    filledSource: (MusicbarSource, PlaylistbarSource, ArtistbarSource),
    fetchedPage: PageArray,
    search: (string, string),
    toFetch: FillFetch,
    help: string)

  /** The three middle panels, each with its slot in the page arrays. */
  datatype Panel = MusicPanel | PlaylistPanel | ArtistPanel {
    function Index(): (i: nat)
      ensures i < 3
    {
      match this
      case MusicPanel => MIDDLE_MUSIC_INDEX
      case PlaylistPanel => MIDDLE_PLAYLIST_INDEX
      case ArtistPanel => MIDDLE_ARTIST_INDEX
    }
  }

  /**
   * What the handler takes from the rest of the user interface: the window
   * cycle (`Window::next` and `Window::prev`), the number of sidebar rows
   * (`SIDEBAR_LIST_COUNT`) and the conversion `SidebarOption::try_from` of a
   * row index, which may fail. The two sidebar parameters are independent:
   * nothing here assumes that the conversion succeeds below the count.
   */
  datatype Env = Env(
    next: Window -> Window,
    prev: Window -> Window,
    sidebarCount: nat,
    sidebarOption: nat -> Option<SidebarOption>)
  {
    /** The sidebar has at least one row, so index arithmetic modulo the count is defined. */
    predicate Valid() {
      sidebarCount > 0
    }
  }

  /** The sidebar cursor points at an existing row. */
  predicate WellFormed(env: Env, s: State) {
    s.sidebar.Some? && s.sidebar.value < env.sidebarCount
  }
}

=== FILE: text.dfy ===
/**
 * The string operations the search bar uses: Rust's `str::trim` (strip
 * characters with the Unicode White_Space property from both ends) and
 * `String::pop` (drop the last character, if any).
 */
module Text {

  /** Rust's `char::is_whitespace`: the Unicode White_Space property. */
  predicate IsWhitespace(c: char) {
    || ('\U{0009}' <= c <= '\U{000D}')
    || c == ' '
    || c == '\U{0085}'
    || c == '\U{00A0}'
    || c == '\U{1680}'
    || ('\U{2000}' <= c <= '\U{200A}')
    || c == '\U{2028}'
    || c == '\U{2029}'
    || c == '\U{202F}'
    || c == '\U{205F}'
    || c == '\U{3000}'
  }

  predicate AllWhitespace(s: string) {
    forall i :: 0 <= i < |s| ==> IsWhitespace(s[i])
  }

  /** The number of whitespace characters `s` starts with. */
  function LeadingBlanks(s: string): (n: nat)
    ensures n <= |s|
    ensures forall i :: 0 <= i < n ==> IsWhitespace(s[i])
    ensures n < |s| ==> !IsWhitespace(s[n])
  {
    if |s| > 0 && IsWhitespace(s[0]) then 1 + LeadingBlanks(s[1..]) else 0
  }

  /** The number of whitespace characters `s` ends with. */
  function TrailingBlanks(s: string): (n: nat)
    ensures n <= |s|
    ensures forall i :: |s| - n <= i < |s| ==> IsWhitespace(s[i])
    ensures n < |s| ==> !IsWhitespace(s[|s| - n - 1])
  {
    if |s| > 0 && IsWhitespace(s[|s| - 1]) then 1 + TrailingBlanks(s[..|s| - 1]) else 0
  }

  /**
   * Rust's `str::trim`: the slice `s[a..a + |r|]` between the leading and the
   * trailing whitespace. It starts and ends with a non-whitespace character
   * and is empty exactly when `s` is all whitespace.
   */
  function Trim(s: string): (r: string)
    ensures |r| <= |s|
    ensures r == [] <==> AllWhitespace(s)
    ensures r != [] ==> !IsWhitespace(r[0]) && !IsWhitespace(r[|r| - 1])
    ensures r != [] ==>
              var a := LeadingBlanks(s);
              && a + |r| <= |s| && r == s[a..a + |r|]
              && (forall i :: 0 <= i < a ==> IsWhitespace(s[i]))
              && (forall i :: a + |r| <= i < |s| ==> IsWhitespace(s[i]))
  {
    var lead := LeadingBlanks(s);
    if lead == |s| then
      []
    else
      var trail := TrailingBlanks(s);
      assert !IsWhitespace(s[lead]);
      s[lead..|s| - trail]
  }

  /** Trimming a trimmed query changes nothing. */
  lemma TrimIdempotent(s: string)
    ensures Trim(Trim(s)) == Trim(s)
  {
    var r := Trim(s);
    if r != [] {
      assert LeadingBlanks(r) == 0;
      assert TrailingBlanks(r) == 0;
      assert r[0..|r|] == r;
    }
  }

  /** Rust's `String::pop` on the live query: removes the last character, if any. */
  function Pop(s: string): (r: string)
    ensures |s| == 0 ==> r == s
    ensures |s| > 0 ==> r + [s[|s| - 1]] == s
  {
    if |s| == 0 then s else s[..|s| - 1]
  }

  /** Typing a character and deleting it again restores the query. */
  lemma PopAfterPush(s: string, c: char)
    ensures Pop(s + [c]) == s
  {
  }
}

=== FILE: wrappers.dfy ===
/** The optional value used throughout the model, mirroring Rust's `Option`. */
module Wrappers {

  datatype Option<+T> = None | Some(value: T) {

    /** The wrapped value, or `default` when there is none (Rust's `unwrap_or`). */
    function GetOr(default: T): (r: T)
      ensures Some? ==> r == value
      ensures None? ==> r == default
    {
      match this
      case Some(v) => v
      case None => default
    }
  }
}
